=== FILE: README.md ===
# Automatic blind controller — Dafny model

A model of the decision logic of `totalo.py`, a MicroPython program for an
ESP32 that drives a window blind through two relays (`upPin`, `downPin`), one
push button (`buttonPin`) and a tiny HTTP server. The model separates the
logic from GPIO, clock and network plumbing:

- **Relays** (`relays.dfy`): relay on/off calls as traces, the set of
  energised relays after a trace, and the "never both relays on" property.
- **Button** (`button.dfy`): button reads as a finite stream of timestamped
  samples. It models the busy-wait edge detector of `pressToContinue` and of
  `timing`, including its two reads per loop iteration.
- **Calibration** (`calibration.dfy`): `timing` and `setup`. They wait for a
  press, run the down relay until a press, wait for a press, run the up relay
  until a press, and return `(downTime, upTime)` in whole seconds.
- **Clock** (`clock.dfy`): the `"{:02}:{:02}"` wall-clock string `curTime`
  and its inverse.
- **Controller** (`controller.dfy`): the globals, `activateBlinds`, and one
  pass of the `motorMain` loop as a pure `Step`. The pass covers the setup
  trigger, the press toggle, and the wake-up (18:24) and bedtime (22:00)
  rules with their priority and the `previousValue == 0` gate.
- **Http** (`http.dfy`): the parsing and routing part of `handleRequest`.
  The request text is split on single spaces with Python's `str.split(" ")`
  semantics and routed: `GET /up` and `GET /down` answer 200, any other
  `GET` answers 404, and other methods get no response.
- **Device** (`device.dfy`): ticks and HTTP requests applied in sequence to
  the shared globals. Every roll blocks the whole cooperative scheduler, so
  events do not overlap.

Behaviour of the code as written that the model keeps and proves:

- There is no busy flag. The relays are still never both on: every relay
  pulse runs to completion before anything else happens (`Device.Run`).
- The HTTP handler drops `activateBlinds`'s return value, so a remote roll
  never updates `upDownState`. After `GET /up` from "down", the next button
  press rolls up again (`Device.RemoteRollLeavesPositionStale`).
- A toggle ends the tick with `continue` before `previousValue` is stored.
  So a button held on the next tick toggles again
  (`Controller.HeldButtonTogglesAgain`).
- The polling loops read the pin twice per iteration and only test the first
  read of each iteration against the read before it. A press that rises on
  the second read is not seen (`Button.PressOnReRead`).
- A setup started on a tick whose previous tick saw the button released is
  followed, in the same tick, by a press toggle while the button is still
  held, so the blind rolls down at once (`Controller.SetupThenToggles`).
- Durations come from the integer clock, so they can be 0
  (`Calibration.ZeroDurations`).
- Calibration runs at most once. When `setup` returns, both durations are
  set, so the guard at totalo.py line 158 never holds again
  (`Controller.Step`).
- Besides the `previousValue == 0` gate and the press check, a schedule
  rule has no once-per-minute flag: only the clock string and the recorded
  position guard it. After it fires, the position it set stops it from
  firing again on the next tick (`Controller.RuleDoesNotRepeat`).
- The HTTP answers are the literals "Rullar upp...", "Rullar ner..." and
  "404 Not Found" under a `text/plain` header (`Http.WireUp`,
  `Http.WireDown`, `Http.WireNotFound`).

## Model

| member | source | states |
|---|---|---|
| Relays.PulseIsSafe | totalo.py:32-34 | switching one relay on then off never has both relays on and leaves every relay off |
| Relays.SequentialIsSafe | totalo.py:32-34 | safe relay segments run one after the other, each ending with the relays off, stay safe, so no busy flag is needed while rolls cannot overlap |
| Relays.PrefixIsSafe | totalo.py:100-133 | a calibration cut short at any point is still safe if the full one is |
| Button.FirstEdge | totalo.py:106-110 | the wait loop leaves at the first tested read that sees the button pressed right after a released read; `None` exactly when no tested read is such a rise |
| Button.PressToContinue | totalo.py:91-97 | `pressToContinue` returns after a genuine release-to-press transition, exactly when one falls on a tested read, and resumes right after the first such read |
| Button.PressOnReRead | totalo.py:93-96 | a rise on the second read of an iteration, still held at the next tested read, is missed |
| Calibration.Timing | totalo.py:100-114 | `timing` switches the relay on before waiting, completes exactly when some tested read rises, and then switches the relay off at the first tested rise and at no earlier tested read; its duration is the clock at that press minus the clock at its first read; without a press the relay stays on and no duration is returned |
| Calibration.TimingStopsAtFirstTestedRise | totalo.py:106-110 | the relay is switched off at read `k` exactly when `k` is the first tested read at which the button rises |
| Calibration.Phase | totalo.py:117-129 | one half of setup (a press, then a timed roll) switches only its own relay, at most on and then off, and completes exactly when the relay was switched off; the roll starts right after the first tested rise and stops at the first rise tested after that, and its duration is the clock difference |
| Calibration.PhaseCompletes | totalo.py:117-129 | one half of setup completes exactly when the button rises at a tested read and again at a read tested after it |
| Calibration.PhaseMeasures | totalo.py:117-129 | a completed half starts right after the first tested press and stops at the first press tested after it, and its duration is the clock difference between them |
| Calibration.Setup | totalo.py:116-133 | the relay calls made so far are always a prefix of down-on, down-off, up-on, up-off, and a result exists exactly when all four happened |
| Calibration.SetupMeasuresDownThenUp | totalo.py:116-133 | a completed setup measured the down roll and then the up roll; each of the four presses is the first one tested after the previous, and the two durations come back in the order `(downTime, upTime)` unpacked at line 161 |
| Calibration.PhaseFromRises | totalo.py:117-129 | a press first tested from the start of a half and the first press tested after it complete that half, with their clock difference as its duration |
| Calibration.SetupCompletes | totalo.py:116-133 | four presses, each the first one tested after the previous, make setup return `(downTime, upTime)` measured between them |
| Calibration.SetupDurationsNonNegative | totalo.py:101-114 | with a clock that does not run backwards both measured durations are at least 0 |
| Calibration.ZeroDurations | totalo.py:101-114 | presses within one second give durations of 0 |
| Calibration.SetupIsSafe | totalo.py:116-133 | the down relay is off before the up relay is switched on, so the two are never on together during setup, however far it got |
| Clock.FormatTime | totalo.py:152-153 | `curTime` is 5 characters, digits around a colon |
| Clock.ParseFormat | totalo.py:153 | the hour and minute can be read back from `curTime` |
| Clock.FormatParse | totalo.py:153 | every valid `HH:MM` string is the `curTime` of the time it names |
| Clock.FormatTimeMatches | totalo.py:152-153 | `curTime` equals a schedule string exactly when the clock shows the hour and minute that string names |
| Controller.ActivateBlinds | totalo.py:27-37 | "up" selects the up relay and `upTime`, every other value the down relay and `downTime`; the relay is pulsed once and the argument is returned unchanged |
| Controller.Poll | totalo.py:167-195 | the toggle fires exactly when set up, the previous level was 0, the button reads 1 and the position is known, and it flips the position; the wake-up and bedtime rules fire only when the toggle does not and the position is the one they move away from; a roll keeps `previousValue`, no roll stores the level; an up roll runs for `upTime` and a down roll for `downTime` |
| Controller.Step | totalo.py:151-195 | setup runs exactly when a duration is missing and the button reads 1; an unfinished setup changes nothing; the durations and `setupState` change only through setup; the state invariant is kept and every roll has a duration, `upTime` for the up relay and `downTime` for the down relay; without setup, and after a completed one with the new durations, the toggle and schedule rules of `Poll` run on this tick's button level and on `curTime` formatted from this tick's clock |
| Controller.InitialIsValid | totalo.py:22-25 | the start-up globals satisfy the state invariant and are not set up |
| Controller.SetupLeavesBlindUp | totalo.py:158-163 | a setup on a tick not preceded by a released reading ends that tick with the blind up and no roll |
| Controller.SetupThenToggles | totalo.py:158-177 | a setup on a tick preceded by a released reading is followed in the same tick by a press roll down, with `previousValue` still 0 |
| Controller.HeldButtonTogglesAgain | totalo.py:167-177 | once set up and gated, a press toggles and leaves `previousValue` at 0 because `continue` skipped storing the level, so the button held on the next tick toggles straight back |
| Controller.StepWakesAtEighteenTwentyFour | totalo.py:152-184 | a loop pass rolls the blind up by the wake-up rule exactly when no setup runs, the gate holds, no press fires, the blind is recorded down and the clock shows 18:24 |
| Controller.StepSleepsAtTwentyTwo | totalo.py:152-190 | a loop pass rolls the blind down by the bedtime rule exactly when no setup runs, the gate holds, no press fires, the blind is recorded up and the clock shows 22:00 |
| Controller.RuleDoesNotRepeat | totalo.py:179-190 | after a schedule rule fires, the next tick cannot fire that same rule |
| Controller.WakeAtEighteenTwentyFour | totalo.py:180-184 | the wake-up rule fires exactly at 18:24, gated and with the blind down and no press |
| Controller.BedtimeAtTwentyTwo | totalo.py:186-190 | the bedtime rule fires exactly at 22:00, gated and with the blind up and no press |
| Http.Split | totalo.py:67 | `str.split(" ")` gives at least one token, no token contains a space, and joining with spaces gives the text back |
| Http.SplitJoin | totalo.py:67 | splitting space-joined, space-free tokens gives the tokens back |
| Http.TokensIff | totalo.py:67 | the first two tokens are `verb` and `path` exactly when the text starts with `verb path` followed by a space or nothing |
| Http.Wire | totalo.py:75-84 | the written text begins with the `HTTP/1.1` status line and its line break and ends with the body |
| Http.WireUp | totalo.py:75 | `GET /up` writes exactly the text of line 75 |
| Http.WireDown | totalo.py:81 | `GET /down` writes exactly the text of line 81 |
| Http.WireNotFound | totalo.py:84 | any other `GET` writes exactly the text of line 84 |
| Http.Route | totalo.py:69-84 | a response is written exactly for `GET`, with status 200 or 404; a roll happens exactly for 200; "up" exactly for `/up` and "down" exactly for `/down` |
| Http.HandleRequest | totalo.py:57-89 | before setup nothing happens; empty text closes without a response; text without a space fails to unpack; a response is 200 or 404 and a roll comes with 200 |
| Http.RoutingByRequestLine | totalo.py:65-84 | a request rolls up with "Rullar upp..." exactly when it starts `GET /up` and a space or nothing, down likewise, any other `GET ` request is answered 404, and a request with a method other than `GET` is read and closed without any response |
| Device.RequestRoll | totalo.py:70-81 | an HTTP roll happens exactly when the request was routed to a direction, in that direction, only once set up; it pulses one relay and runs for `upTime` on the up relay and `downTime` on the down relay |
| Device.ApplyRequest | totalo.py:57-89 | an HTTP request never changes the globals, `upDownState` included; its relay calls are safe |
| Device.ApplyTick | totalo.py:151-195 | a tick keeps the state invariant, never has both relays on, leaves them off unless stuck in setup, and pulses at most one relay when no setup runs |
| Device.Apply | totalo.py:208-212 | one event, tick or request, keeps the state invariant and the relay safety |
| Device.Run | totalo.py:208-212 | any sequence of ticks and requests keeps the state invariant and never has both relays on |
| Device.RunFromInitial | totalo.py:22-25 | from power-on every reachable state is valid and the relays are never both on |
| Device.RemoteUpPulsesUpRelay | totalo.py:70-75 | any request starting `GET /up`, once set up, pulses the up relay |
| Device.RemoteDownPulsesDownRelay | totalo.py:76-81 | any request starting `GET /down`, once set up, pulses the down relay |
| Device.PressFromDownPulsesUpRelay | totalo.py:167-171 | a gated press with the blind recorded down pulses the up relay |
| Device.RemoteRollLeavesPositionStale | totalo.py:70-81 | after a remote `GET /up` from "down" the record still says "down" and the next press runs the up relay again |

## Left out

- WiFi association (`connectToWifi`), the NTP sync and the `asyncio` server and task setup in `main` are network and runtime plumbing. The model only keeps their effect: requests and ticks are applied one at a time.
- GPIO reads and writes become sample streams and relay traces. `time.sleep` of the roll duration and the 5-second `sleep_ms` pauses after schedule rolls are not modelled: they hold the scheduler but change no modelled state.
- The `buttonPin.value(0)` write on an input pin (lines 172 and 176) has no effect on modelled state.
- The button reads at lines 159, 169 and 193 are modelled as one level per tick. After a setup, that level stands for the read at line 169; setup ends on a press, so the button is normally still held then.
- Calibration.Timing: the start time is taken as the clock of the loop's first button read (line 105) rather than a separate `time.time()` call (line 101). The end time is taken as the clock of the read that saw the press (line 113).
- Http.Wire: defined only for the statuses 200 and 404, the only ones the handler writes.
- Http.HandleRequest: the request is modelled as already decoded text. The 1024-byte limit of `reader.read` and UTF-8 decoding errors are not modelled.
- `print` logging, and the socket `drain`, `close` and `wait_closed` calls, are left out. Whether a connection is closed appears only in the `Handled` cases.
- Cooperative interleaving inside one request, between its read and its roll, is not modelled. `setupState` only ever becomes true, so reading it before the `await` gives the same routing.
- The integer clock of the samples is left unconstrained, so negative durations are allowed in the model; `time.sleep` of a negative value is not modelled.

=== FILE: button.dfy ===
/**
 * The button input pin and the busy-wait edge detector of `pressToContinue`
 * and of the wait loop inside `timing`.
 *
 * Button reads are a finite stream of samples. Each sample is one
 * `buttonPin.value()` call together with the integer `time.time()` reading
 * taken at that moment. Running out of samples means the device would still
 * be waiting.
 */
module Button {
  import opened Wrappers

  /** What `Pin.value()` returns: 0 when released, 1 when pressed. */
  type Level = l: int | 0 <= l <= 1

  /** One read of the button pin and the clock's whole seconds at that read. */
  datatype Sample = Sample(level: Level, clock: int)

  /** The read at `j` sees the button pressed and the read just before it saw it released. */
  predicate IsRising(s: seq<Sample>, j: int) {
    1 <= j < |s| && s[j - 1].level == 0 && s[j].level == 1
  }

  /**
   * The polling loop reads the pin twice per iteration: a check read at `j`,
   * compared with `previousValue`, and then a re-read at `j + 1` that becomes
   * the next `previousValue`. So only the positions `i`, `i + 2`, `i + 4`, ...
   * are tested, each against the read immediately before it.
   */
  predicate IsCheck(i: int, j: int) {
    i <= j && (j - i) % 2 == 0
  }

  /**
   * The index of the check read at which the loop leaves, looking at check
   * positions from `i` on; `None` if the samples run out first.
   */
  function FirstEdge(s: seq<Sample>, i: nat): (r: Option<nat>)
    requires 1 <= i
    ensures r.Some? ==> IsCheck(i, r.value) && IsRising(s, r.value)
    ensures r.Some? ==> forall j :: IsCheck(i, j) && j < r.value ==> !IsRising(s, j)
    ensures r.None? ==> forall j :: IsCheck(i, j) ==> !IsRising(s, j)
    decreases |s| - i
  {
    if i >= |s| then None
    else if s[i].level == 1 && s[i - 1].level == 0 then Some(i)
    else FirstEdge(s, i + 2)
  }

  /**
   * `k` is where a wait loop testing the check positions from `i` on leaves:
   * the first of them at which the button rises.
   */
  ghost predicate FirstTestedRise(s: seq<Sample>, i: int, k: int) {
    IsCheck(i, k) && IsRising(s, k) && forall j :: IsCheck(i, j) && j < k ==> !IsRising(s, j)
  }

  /** A wait loop has at most one place to leave. */
  lemma FirstTestedRiseUnique(s: seq<Sample>, i: int, a: int, b: int)
    requires FirstTestedRise(s, i, a) && FirstTestedRise(s, i, b)
    ensures a == b
  {
  }

  /**
   * `pressToContinue` started at sample `from`: the first read initialises
   * `previousValue`; the result is the index of the first sample after the
   * detected press, where the caller resumes reading.
   */
  function PressToContinue(s: seq<Sample>, from: nat): (r: Option<nat>)
    ensures r.Some? ==> from + 2 <= r.value <= |s|
    ensures r.Some? <==> exists j :: IsCheck(from + 1, j) && IsRising(s, j)
    ensures r.Some? ==> FirstTestedRise(s, from + 1, r.value - 1)
  {
    if from >= |s| then None
    else
      match FirstEdge(s, from + 1)
      case Some(k) => Some(k + 1)
      case None => None
  }

  /**
   * The re-read quirk: a press that rises on a re-read and is still held at
   * the following check read is not seen, because `previousValue` is already 1.
   */
  lemma PressOnReRead()
    ensures var s := [Sample(0, 0), Sample(0, 0), Sample(1, 0), Sample(1, 0)];
            IsRising(s, 2) && PressToContinue(s, 0) == None
  {
  }
}

=== FILE: calibration.dfy ===
/**
 * The one-time calibration of `setup`: wait for a press, run the down relay
 * until the next press, wait for a press, run the up relay until the next
 * press, and report the two measured durations in whole seconds.
 */
module Calibration {
  import opened Wrappers
  import opened Relays
  import opened Button

  /**
   * What one call of the inner `timing(pin)` did: the relay calls, the
   * measured duration, the sample its clock started from, and the sample
   * where reading resumes.
   */
  datatype TimingRun = TimingRun(trace: seq<RelayEvent>, duration: Option<int>, start: nat, next: nat)

  /** What one call of `setup()` did; `times` is `(downTime, upTime)` once it returned. */
  datatype SetupRun = SetupRun(trace: seq<RelayEvent>, times: Option<(int, int)>)

  /** The relay calls of a completed setup: down on, down off, up on, up off. */
  const FullSetupTrace: seq<RelayEvent> := [On(DownRelay), Off(DownRelay), On(UpRelay), Off(UpRelay)]

  /** The clock never runs backwards over the samples. */
  predicate Monotone(s: seq<Sample>) {
    forall i, j :: 0 <= i <= j < |s| ==> s[i].clock <= s[j].clock
  }

  /**
   * `timing(pin)` started at sample `from`: the relay is switched on, the
   * wait loop runs, and the relay is switched off exactly at the detected
   * press. The start time is the clock of the loop's first read and the end
   * time the clock of the read that saw the press.
   */
  function Timing(relay: Relay, s: seq<Sample>, from: nat): (r: TimingRun)
    ensures r.duration.Some? ==> r.trace == [On(relay), Off(relay)]
    ensures r.duration.None? ==> r.trace == [On(relay)]
    ensures r.duration.Some? <==> exists j :: IsCheck(from + 1, j) && IsRising(s, j)
    ensures r.duration.Some? ==>
              && r.start == from && from + 2 <= r.next <= |s|
              && FirstTestedRise(s, from + 1, r.next - 1)
              && r.duration.value == s[r.next - 1].clock - s[from].clock
  {
    match PressToContinue(s, from)
    case None => TimingRun([On(relay)], None, from, |s|)
    case Some(n) => TimingRun([On(relay), Off(relay)], Some(s[n - 1].clock - s[from].clock), from, n)
  }

  /** The relay of `timing` is switched off at `k` exactly when `k` is the first tested rise. */
  lemma TimingStopsAtFirstTestedRise(relay: Relay, s: seq<Sample>, from: nat, k: int)
    ensures (Timing(relay, s, from).duration.Some? && Timing(relay, s, from).next == k + 1)
              <==> FirstTestedRise(s, from + 1, k)
  {
    var r := Timing(relay, s, from);
    if FirstTestedRise(s, from + 1, k) {
      assert r.duration.Some?;
      FirstTestedRiseUnique(s, from + 1, k, r.next - 1);
    }
  }

  /**
   * Once the first tested rise after `i` is at `p0`, any rise tested two
   * positions after some tested rise is also tested by a loop resuming after `p0`.
   */
  lemma LaterRiseIsTested(s: seq<Sample>, i: int, p0: int, p: int, q: int)
    requires FirstTestedRise(s, i, p0)
    requires IsCheck(i, p) && IsRising(s, p) && IsCheck(p + 2, q)
    ensures IsCheck(p0 + 2, q)
  {
  }

  /** One half of `setup`: `pressToContinue`, then `timing(pin)` from where it stopped reading. */
  function Phase(relay: Relay, s: seq<Sample>, from: nat): (r: TimingRun)
    ensures r.trace <= [On(relay), Off(relay)]
    ensures r.duration.Some? <==> r.trace == [On(relay), Off(relay)]
    ensures r.duration.Some? ==>
              && from + 2 <= r.start < r.next - 1 < r.next <= |s|
              && FirstTestedRise(s, from + 1, r.start - 1) && FirstTestedRise(s, r.start + 1, r.next - 1)
              && r.duration.value == s[r.next - 1].clock - s[r.start].clock
  {
    match PressToContinue(s, from)
    case None => TimingRun([], None, from, |s|)
    case Some(p) => Timing(relay, s, p)
  }

  /**
   * The button rises at a read tested by a loop started at `from`, and again
   * at a read tested by a loop started right after that rise.
   */
  ghost predicate TwoTestedRises(s: seq<Sample>, from: nat) {
    exists p, q :: IsCheck(from + 1, p) && IsRising(s, p) && IsCheck(p + 2, q) && IsRising(s, q)
  }

  /** Two tested rises, the second tested after the first, complete a phase. */
  lemma TwoRisesCompletePhase(relay: Relay, s: seq<Sample>, from: nat, p: int, q: int)
    requires IsCheck(from + 1, p) && IsRising(s, p) && IsCheck(p + 2, q) && IsRising(s, q)
    ensures Phase(relay, s, from).duration.Some?
  {
    var p0 := PressToContinue(s, from).value;
    LaterRiseIsTested(s, from + 1, p0 - 1, p, q);
    assert IsCheck(p0 + 1, q) && IsRising(s, q);
    assert Phase(relay, s, from) == Timing(relay, s, p0);
  }

  /** A completed phase saw a tested rise and a rise tested after it. */
  lemma CompletePhaseHasTwoRises(relay: Relay, s: seq<Sample>, from: nat)
    requires Phase(relay, s, from).duration.Some?
    ensures TwoTestedRises(s, from)
  {
    var r := Phase(relay, s, from);
    var p, q := r.start - 1, r.next - 1;
    assert FirstTestedRise(s, from + 1, p) && FirstTestedRise(s, r.start + 1, q);
    assert p + 2 == r.start + 1;
    assert IsCheck(from + 1, p) && IsRising(s, p) && IsCheck(p + 2, q) && IsRising(s, q);
  }

  /** A phase completes exactly when the button rises at a tested read and again at a read tested after it. */
  lemma PhaseCompletes(relay: Relay, s: seq<Sample>, from: nat)
    ensures Phase(relay, s, from).duration.Some? <==> TwoTestedRises(s, from)
  {
    if TwoTestedRises(s, from) {
      var p, q :| IsCheck(from + 1, p) && IsRising(s, p) && IsCheck(p + 2, q) && IsRising(s, q);
      TwoRisesCompletePhase(relay, s, from, p, q);
    }
    if Phase(relay, s, from).duration.Some? {
      CompletePhaseHasTwoRises(relay, s, from);
    }
  }

  /** `setup()` reading the button samples `s` from the start. */
  function Setup(s: seq<Sample>): (r: SetupRun)
    ensures |r.trace| <= |FullSetupTrace| && r.trace == FullSetupTrace[..|r.trace|]
    ensures r.times.Some? <==> r.trace == FullSetupTrace
  {
    var down := Phase(DownRelay, s, 0);
    match down.duration
    case None => SetupRun(down.trace, None)
    case Some(downTime) =>
      var up := Phase(UpRelay, s, down.next);
      match up.duration
      case None => SetupRun(down.trace + up.trace, None)
      case Some(upTime) => SetupRun(down.trace + up.trace, Some((downTime, upTime)))
  }

  /**
   * A completed phase ran from the read after the first tested press to the
   * first press tested after it. This is `Phase`'s contract with the two
   * positions named, so that `SetupMeasuresDownThenUp` can use them without
   * unfolding `Phase` twice.
   */
  lemma PhaseMeasures(relay: Relay, s: seq<Sample>, from: nat, d: int) returns (start: nat, stop: nat)
    requires Phase(relay, s, from).duration == Some(d)
    ensures from + 2 <= start < stop < |s| && stop + 1 == Phase(relay, s, from).next
    ensures FirstTestedRise(s, from + 1, start - 1) && FirstTestedRise(s, start + 1, stop)
    ensures d == s[stop].clock - s[start].clock
  {
    var r := Phase(relay, s, from);
    start, stop := r.start, r.next - 1;
  }

  /**
   * A completed setup measured the down roll first and the up roll second:
   * each duration runs from the first read after a press to the press that
   * stopped its relay, and the four presses come in order.
   */
  lemma SetupMeasuresDownThenUp(s: seq<Sample>, downTime: int, upTime: int)
      returns (p1: nat, e1: nat, p2: nat, e2: nat)
    requires Setup(s).times == Some((downTime, upTime))
    ensures 2 <= p1 < e1 < p2 - 1 < e2 < |s|
    ensures FirstTestedRise(s, 1, p1 - 1) && FirstTestedRise(s, p1 + 1, e1)
    ensures FirstTestedRise(s, e1 + 2, p2 - 1) && FirstTestedRise(s, p2 + 1, e2)
    ensures downTime == s[e1].clock - s[p1].clock
    ensures upTime == s[e2].clock - s[p2].clock
  {
    var next := Phase(DownRelay, s, 0).next;
    assert Phase(DownRelay, s, 0).duration == Some(downTime);
    assert Phase(UpRelay, s, next).duration == Some(upTime);
    p1, e1 := PhaseMeasures(DownRelay, s, 0, downTime);
    p2, e2 := PhaseMeasures(UpRelay, s, next, upTime);
    var upFrom := next + 1;
    assert upFrom == e1 + 2;
    assert FirstTestedRise(s, upFrom, p2 - 1);
  }

  /**
   * A press first tested at `p - 1` and the first press tested after it, at
   * `e`, complete a phase that measures the clock from `p` to `e`.
   */
  lemma PhaseFromRises(relay: Relay, s: seq<Sample>, from: nat, p: nat, e: nat)
    requires p >= 1
    requires FirstTestedRise(s, from + 1, p - 1) && FirstTestedRise(s, p + 1, e)
    ensures Phase(relay, s, from).duration == Some(s[e].clock - s[p].clock)
    ensures Phase(relay, s, from).next == e + 1
  {
    var k := PressToContinue(s, from).value;
    FirstTestedRiseUnique(s, from + 1, k - 1, p - 1);
    assert Phase(relay, s, from) == Timing(relay, s, p);
    var r := Timing(relay, s, p);
    assert r.duration.Some?;
    FirstTestedRiseUnique(s, p + 1, r.next - 1, e);
  }

  /**
   * The converse of `SetupMeasuresDownThenUp`: four presses, each the first
   * one tested after the previous, make setup return, with the durations
   * measured between them.
   */
  lemma SetupCompletes(s: seq<Sample>, p1: nat, e1: nat, p2: nat, e2: nat)
    requires p1 >= 1 && p2 >= 1
    requires FirstTestedRise(s, 1, p1 - 1) && FirstTestedRise(s, p1 + 1, e1)
    requires FirstTestedRise(s, e1 + 2, p2 - 1) && FirstTestedRise(s, p2 + 1, e2)
    ensures Setup(s).times == Some((s[e1].clock - s[p1].clock, s[e2].clock - s[p2].clock))
  {
    PhaseFromRises(DownRelay, s, 0, p1, e1);
    var next := Phase(DownRelay, s, 0).next;
    assert next + 1 == e1 + 2;
    PhaseFromRises(UpRelay, s, next, p2, e2);
  }

  /** With a clock that does not run backwards both durations are at least 0 (and may be 0). */
  lemma SetupDurationsNonNegative(s: seq<Sample>)
    requires Monotone(s)
    ensures Setup(s).times.Some? ==> Setup(s).times.value.0 >= 0 && Setup(s).times.value.1 >= 0
  {
  }

  /** Four presses within the same second calibrate both durations to 0. */
  lemma ZeroDurations()
    ensures var s := [Sample(0, 7), Sample(1, 7), Sample(0, 7), Sample(1, 7),
                      Sample(0, 7), Sample(1, 7), Sample(0, 7), Sample(1, 7)];
            Setup(s).times == Some((0, 0))
  {
    var s := [Sample(0, 7), Sample(1, 7), Sample(0, 7), Sample(1, 7),
              Sample(0, 7), Sample(1, 7), Sample(0, 7), Sample(1, 7)];
    assert PressToContinue(s, 0) == Some(2) by { assert FirstEdge(s, 1) == Some(1); }
    assert Timing(DownRelay, s, 2).duration == Some(0) && Timing(DownRelay, s, 2).next == 4 by {
      assert FirstEdge(s, 3) == Some(3);
    }
    assert PressToContinue(s, 4) == Some(6) by { assert FirstEdge(s, 5) == Some(5); }
    assert Timing(UpRelay, s, 6).duration == Some(0) by { assert FirstEdge(s, 7) == Some(7); }
  }

  /** The whole calibration sequence never has both relays on. */
  lemma FullSetupIsSafe()
    ensures OneAtATime(FullSetupTrace) && Released(FullSetupTrace)
  {
    PulseIsSafe(DownRelay);
    PulseIsSafe(UpRelay);
    assert FullSetupTrace == [On(DownRelay), Off(DownRelay)] + [On(UpRelay), Off(UpRelay)];
    SequentialIsSafe([On(DownRelay), Off(DownRelay)], [On(UpRelay), Off(UpRelay)]);
  }

  /**
   * Relays are energised one at a time during setup, however far it got:
   * the down relay is off before the up relay is switched on.
   */
  lemma SetupIsSafe(s: seq<Sample>)
    ensures OneAtATime(Setup(s).trace)
    ensures Setup(s).times.Some? ==> Released(Setup(s).trace)
  {
    FullSetupIsSafe();
    PrefixIsSafe(FullSetupTrace, |Setup(s).trace|);
  }
}

=== FILE: clock.dfy ===
/**
 * The wall-clock string the main loop compares against its schedule:
 * `"{:02}:{:02}".format(hour, minute)` of `time.localtime()`.
 */
module Clock {
  import opened Wrappers

  /** `localtime()[3]`. */
  type Hour = h: int | 0 <= h < 24
  /** `localtime()[4]`. */
  type Minute = m: int | 0 <= m < 60

  predicate IsDigit(c: char) {
    '0' <= c <= '9'
  }

  function DigitChar(d: int): (c: char)
    requires 0 <= d < 10
    ensures IsDigit(c)
  {
    ('0' as int + d) as char
  }

  function DigitValue(c: char): (d: int)
    requires IsDigit(c)
    ensures 0 <= d < 10 && DigitChar(d) == c
  {
    c as int - '0' as int
  }

  /** The `{:02}` format of a value below 100: two decimal digits, zero padded. */
  function Pad2(n: int): (r: string)
    requires 0 <= n < 100
    ensures |r| == 2 && IsDigit(r[0]) && IsDigit(r[1])
    ensures 10 * DigitValue(r[0]) + DigitValue(r[1]) == n
  {
    [DigitChar(n / 10), DigitChar(n % 10)]
  }

  /** The `curTime` string of the main loop: 5 characters, `HH:MM`. */
  function FormatTime(h: Hour, m: Minute): (r: string)
    ensures |r| == 5 && r[2] == ':'
    ensures IsDigit(r[0]) && IsDigit(r[1]) && IsDigit(r[3]) && IsDigit(r[4])
  {
    Pad2(h) + ":" + Pad2(m)
  }

  /** Reads an `HH:MM` string back; `None` unless it names a valid hour and minute. */
  function ParseTime(s: string): (r: Option<(Hour, Minute)>)
    ensures r.Some? ==> |s| == 5 && s[2] == ':'
  {
    if |s| == 5 && s[2] == ':' && IsDigit(s[0]) && IsDigit(s[1]) && IsDigit(s[3]) && IsDigit(s[4]) then
      var h := 10 * DigitValue(s[0]) + DigitValue(s[1]);
      var m := 10 * DigitValue(s[3]) + DigitValue(s[4]);
      if h < 24 && m < 60 then Some((h, m)) else None
    else None
  }

  /** Formatting loses nothing: the hour and minute can be read back. */
  lemma ParseFormat(h: Hour, m: Minute)
    ensures ParseTime(FormatTime(h, m)) == Some((h, m))
  {
  }

  /** Every string that parses is the formatted form of what it parses to. */
  lemma FormatParse(s: string)
    requires ParseTime(s).Some?
    ensures FormatTime(ParseTime(s).value.0, ParseTime(s).value.1) == s
  {
  }

  /**
   * `curTime == text` holds exactly when the clock's hour and minute are the
   * ones `text` spells: comparing strings is comparing times.
   */
  lemma FormatTimeMatches(h: Hour, m: Minute, text: string)
    ensures FormatTime(h, m) == text <==> ParseTime(text) == Some((h, m))
  {
  }
}

=== FILE: controller.dfy ===
/**
 * The blind controller's global state, `activateBlinds`, and one pass of the
 * `while True` loop of `motorMain` as a pure step function.
 */
module Controller {
  import opened Wrappers
  import opened Relays
  import opened Button
  import opened Clock
  import opened Calibration

  /** The schedule constants of `motorMain`. */
  const WAKEUP_TIME: string := "18:24"
  const SLEEP_TIME: string := "22:00"

  /**
   * The module globals `downTime`, `upTime`, `setupState`, `upDownState`
   * and the loop variable `previousValue` of `motorMain`.
   */
  datatype State = State(
    downTime: Option<int>,
    upTime: Option<int>,
    setupState: bool,
    upDownState: Option<string>,
    previousValue: Option<Level>)

  /** Everything `None`/`False`, as at import time and before the first tick. */
  const Initial: State := State(None, None, false, None, None)

  /**
   * What the globals always satisfy: calibration sets both durations,
   * `setupState` and the position together, and the position is only ever
   * "up" or "down".
   */
  predicate Valid(st: State) {
    && (st.setupState <==> st.downTime.Some? && st.upTime.Some?)
    && (st.setupState <==> st.upDownState.Some?)
    && (st.upDownState.Some? ==> st.upDownState.value in {UP, DOWN})
  }

  /** One call of `activateBlinds(way)`: the relay pulsed, for how long, and the value returned. */
  datatype Activation = Activation(relay: Relay, duration: Option<int>, trace: seq<RelayEvent>, way: string)

  /**
   * `activateBlinds(way)`: "up" selects the up relay and `upTime`, any other
   * value the down relay and `downTime`; the relay is switched on, held for
   * the duration and switched off, and `way` is returned unchanged.
   */
  function ActivateBlinds(way: string, upTime: Option<int>, downTime: Option<int>): (a: Activation)
    ensures a.way == way
    ensures a.relay == UpRelay <==> way == UP
    ensures a.relay == UpRelay ==> a.duration == upTime
    ensures a.relay == DownRelay ==> a.duration == downTime
    ensures a.trace == [On(a.relay), Off(a.relay)]
  {
    var relay := if way == UP then UpRelay else DownRelay;
    var duration := if way == UP then upTime else downTime;
    Activation(relay, duration, [On(relay), Off(relay)], way)
  }

  /** The opposite position. */
  function Flip(way: string): (r: string)
    requires way in {UP, DOWN}
    ensures r in {UP, DOWN} && r != way
  {
    if way == DOWN then UP else DOWN
  }

  /** Why a tick rolled the blind: the button, the wake-up rule or the bedtime rule. */
  datatype Cause = Press | Wake | Bedtime

  datatype Roll = Roll(cause: Cause, activation: Activation)

  /** The inputs of one tick: the button level, the local hour and minute, and the samples a setup would read. */
  datatype Tick = Tick(level: Level, hour: Hour, minute: Minute, calibration: seq<Sample>)

  /**
   * The effect of one tick. `setup` is the calibration run when this tick
   * started one; a run without `times` never returned, so the loop is still
   * inside it. `roll` holds the one roll, if any, the tick performed.
   */
  datatype TickResult = TickResult(state: State, setup: Option<SetupRun>, roll: Option<Roll>)

  /** The toggle and schedule rules only run when set up and the previous tick saw the button released. */
  predicate Gate(st: State) {
    st.setupState && st.previousValue == Some(0)
  }

  predicate PressFires(st: State, level: Level) {
    Gate(st) && level == 1 && st.upDownState in {Some(UP), Some(DOWN)}
  }

  predicate WakeFires(st: State, level: Level, curTime: string) {
    Gate(st) && !PressFires(st, level) && curTime == WAKEUP_TIME && st.upDownState == Some(DOWN)
  }

  predicate BedtimeFires(st: State, level: Level, curTime: string) {
    Gate(st) && !PressFires(st, level) && curTime == SLEEP_TIME && st.upDownState == Some(UP)
  }

  /** Rolls towards `way` and stores what `activateBlinds` returned; `previousValue` is left as it was (`continue`). */
  function Rolled(st: State, cause: Cause, way: string): TickResult {
    var a := ActivateBlinds(way, st.upTime, st.downTime);
    TickResult(st.(upDownState := Some(a.way)), None, Some(Roll(cause, a)))
  }

  /** The end of the loop body: remember the button level for the next tick. */
  function Listen(st: State, level: Level): TickResult {
    TickResult(st.(previousValue := Some(level)), None, None)
  }

  /**
   * The toggle and schedule part of the loop body. The button is checked
   * first and each rule is guarded by the position it moves away from.
   */
  function Poll(st: State, level: Level, curTime: string): (r: TickResult)
    ensures r.setup.None?
    ensures r.roll.Some? && r.roll.value.cause == Press <==> PressFires(st, level)
    ensures r.roll.Some? && r.roll.value.cause == Wake <==> WakeFires(st, level, curTime)
    ensures r.roll.Some? && r.roll.value.cause == Bedtime <==> BedtimeFires(st, level, curTime)
    ensures PressFires(st, level) ==> r.state == st.(upDownState := Some(Flip(st.upDownState.value)))
    ensures WakeFires(st, level, curTime) ==> r.state == st.(upDownState := Some(UP))
    ensures BedtimeFires(st, level, curTime) ==> r.state == st.(upDownState := Some(DOWN))
    ensures r.roll.None? ==> r.state == st.(previousValue := Some(level))
    ensures r.roll.Some? ==>
              && r.roll.value.activation.trace == [On(r.roll.value.activation.relay), Off(r.roll.value.activation.relay)]
              && r.state.upDownState == Some(r.roll.value.activation.way)
              && (r.roll.value.activation.relay == UpRelay <==> r.state.upDownState == Some(UP))
    ensures r.roll.Some? ==>
              r.roll.value.activation.duration
                == (if r.roll.value.activation.relay == UpRelay then st.upTime else st.downTime)
  {
    if Gate(st) then
      if level == 1 && st.upDownState == Some(DOWN) then Rolled(st, Press, UP)
      else if level == 1 && st.upDownState == Some(UP) then Rolled(st, Press, DOWN)
      else if WAKEUP_TIME == curTime && st.upDownState == Some(DOWN) then Rolled(st, Wake, UP)
      else if SLEEP_TIME == curTime && st.upDownState == Some(UP) then Rolled(st, Bedtime, DOWN)
      else Listen(st, level)
    else Listen(st, level)
  }

  /** Lines 161-163: the measured durations are stored, setup is done and the blind counts as up. */
  function Calibrated(st: State, times: (int, int)): State {
    st.(downTime := Some(times.0), upTime := Some(times.1), setupState := true, upDownState := Some(UP))
  }

  predicate NeedsSetup(st: State, level: Level) {
    (st.downTime.None? || st.upTime.None?) && level == 1
  }

  /** One pass of the `while True` loop of `motorMain`. */
  function Step(st: State, t: Tick): (r: TickResult)
    ensures r.setup.Some? <==> NeedsSetup(st, t.level)
    ensures r.setup.Some? ==> r.setup.value == Setup(t.calibration)
    ensures r.setup.Some? && r.setup.value.times.None? ==> r.state == st && r.roll.None?
    ensures r.setup.Some? && r.setup.value.times.Some? ==>
              && r.state.downTime == Some(r.setup.value.times.value.0)
              && r.state.upTime == Some(r.setup.value.times.value.1)
              && r.state.setupState
    ensures r.setup.None? ==>
              && r.state.downTime == st.downTime && r.state.upTime == st.upTime
              && r.state.setupState == st.setupState
    ensures Valid(st) ==> Valid(r.state)
    ensures Valid(st) && r.roll.Some? ==> r.roll.value.activation.duration.Some?
    ensures r.roll.Some? ==>
              r.roll.value.activation.duration
                == (if r.roll.value.activation.relay == UpRelay then r.state.upTime else r.state.downTime)
    ensures r.roll.Some? ==> r.roll.value.activation.trace == [On(r.roll.value.activation.relay), Off(r.roll.value.activation.relay)]
    ensures !NeedsSetup(st, t.level) ==> r == Poll(st, t.level, FormatTime(t.hour, t.minute))
    ensures r.setup.Some? && r.setup.value.times.Some? ==>
              r == Poll(Calibrated(st, r.setup.value.times.value), t.level, FormatTime(t.hour, t.minute)).(setup := r.setup)
  {
    var curTime := FormatTime(t.hour, t.minute);
    if NeedsSetup(st, t.level) then
      var run := Setup(t.calibration);
      match run.times
      case None => TickResult(st, Some(run), None)
      case Some(times) => Poll(Calibrated(st, times), t.level, curTime).(setup := Some(run))
    else Poll(st, t.level, curTime)
  }

  /** Nothing is set up before the first tick. */
  lemma InitialIsValid()
    ensures Valid(Initial) && !Initial.setupState
  {
  }

  /**
   * A setup that completes on the very first tick, or on a tick that follows
   * one with the button pressed, leaves the blind up and performs no roll.
   */
  lemma SetupLeavesBlindUp(st: State, t: Tick)
    ensures NeedsSetup(st, t.level) && Setup(t.calibration).times.Some? && st.previousValue != Some(0) ==>
              Step(st, t).state.upDownState == Some(UP) && Step(st, t).roll.None?
  {
  }

  /**
   * A setup started on a tick that follows one with the button released is
   * followed, in the same tick, by a press toggle: the level that started
   * setup still reads 1, so the blind is rolled down straight away.
   */
  lemma SetupThenToggles(st: State, t: Tick)
    ensures NeedsSetup(st, t.level) && Setup(t.calibration).times.Some? && st.previousValue == Some(0) ==>
              && Step(st, t).roll.Some? && Step(st, t).roll.value.cause == Press
              && Step(st, t).state.upDownState == Some(DOWN)
              && Step(st, t).state.previousValue == Some(0)
  {
  }

  /**
   * The toggle ends the tick without updating `previousValue`, so a button
   * still held on the next tick toggles again.
   */
  lemma HeldButtonTogglesAgain(st: State, t: Tick, t': Tick)
    requires Valid(st) && Gate(st)
    requires t.level == 1 && t'.level == 1
    ensures var r := Step(st, t);
            && r.roll.Some? && r.roll.value.cause == Press
            && r.state.previousValue == Some(0)
            && Step(r.state, t').roll.Some? && Step(r.state, t').roll.value.cause == Press
            && Step(r.state, t').state.upDownState == st.upDownState
  {
  }

  /**
   * After a schedule rule fires the blind is in the position that rule moves
   * to, so the same rule cannot fire on the next tick, whatever its inputs.
   */
  lemma RuleDoesNotRepeat(st: State, t: Tick, t': Tick)
    requires Valid(st)
    requires Step(st, t).roll.Some? && Step(st, t).roll.value.cause in {Wake, Bedtime}
    ensures var r := Step(st, t);
            var r' := Step(r.state, t');
            r'.roll.Some? ==> r'.roll.value.cause != r.roll.value.cause
  {
  }

  /** The wake-up rule fires at 18:24 local time and at no other minute. */
  lemma WakeAtEighteenTwentyFour(st: State, t: Tick)
    ensures WakeFires(st, t.level, FormatTime(t.hour, t.minute)) <==>
              Gate(st) && !PressFires(st, t.level) && st.upDownState == Some(DOWN) && t.hour == 18 && t.minute == 24
  {
  }

  /** The bedtime rule fires at 22:00 local time and at no other minute. */
  lemma BedtimeAtTwentyTwo(st: State, t: Tick)
    ensures BedtimeFires(st, t.level, FormatTime(t.hour, t.minute)) <==>
              Gate(st) && !PressFires(st, t.level) && st.upDownState == Some(UP) && t.hour == 22 && t.minute == 0
  {
  }

  /** On a tick of the loop, the wake-up rule rolls the blind up at 18:24 local time and at no other minute. */
  lemma StepWakesAtEighteenTwentyFour(st: State, t: Tick)
    ensures (Step(st, t).roll.Some? && Step(st, t).roll.value.cause == Wake) <==>
              && !NeedsSetup(st, t.level) && Gate(st) && !PressFires(st, t.level)
              && st.upDownState == Some(DOWN) && t.hour == 18 && t.minute == 24
  {
    WakeAtEighteenTwentyFour(st, t);
  }

  /** On a tick of the loop, the bedtime rule rolls the blind down at 22:00 local time and at no other minute. */
  lemma StepSleepsAtTwentyTwo(st: State, t: Tick)
    ensures (Step(st, t).roll.Some? && Step(st, t).roll.value.cause == Bedtime) <==>
              && !NeedsSetup(st, t.level) && Gate(st) && !PressFires(st, t.level)
              && st.upDownState == Some(UP) && t.hour == 22 && t.minute == 0
  {
    BedtimeAtTwentyTwo(st, t);
  }
}

=== FILE: device.dfy ===
/**
 * The device as a whole: main-loop ticks and HTTP requests applied one after
 * the other to the shared globals. Every roll blocks the whole cooperative
 * scheduler (`time.sleep` inside `activateBlinds`), so events never overlap.
 */
module Device {
  import opened Wrappers
  import opened Relays
  import opened Calibration
  import opened Controller
  import opened Http

  /** One pass of the main loop, or one accepted HTTP connection. */
  datatype Event = TickEvent(tick: Tick) | RequestEvent(request: string)

  /**
   * The globals afterwards, the relay calls made, and whether the main loop
   * is still blocked inside `setup()` when the samples ran out.
   */
  datatype Effect = Effect(state: State, trace: seq<RelayEvent>, stuck: bool)

  /** The roll an HTTP request performs, if any; `activateBlinds`'s return value is dropped. */
  function RequestRoll(st: State, request: string): (a: Option<Activation>)
    ensures a.Some? ==> st.setupState && a.value.trace == [On(a.value.relay), Off(a.value.relay)]
    ensures a.Some? && Valid(st) ==> a.value.duration.Some?
    ensures a.Some? ==> a.value.duration == (if a.value.relay == UpRelay then st.upTime else st.downTime)
    ensures var h := HandleRequest(st.setupState, request); a.Some? <==> h.Served? && h.roll.Some?
    ensures var h := HandleRequest(st.setupState, request); a.Some? ==> a.value.way == h.roll.value
  {
    match HandleRequest(st.setupState, request)
    case Served(_, Some(way)) => Some(ActivateBlinds(way, st.upTime, st.downTime))
    case _ => None
  }

  lemma EmptyIsSafe()
    ensures OneAtATime([]) && Released([])
  {
  }

  /**
   * An HTTP connection: whatever it routes to, the globals are left as they
   * were, because the return value of `activateBlinds` is discarded.
   */
  function ApplyRequest(st: State, request: string): (x: Effect)
    ensures x.state == st && !x.stuck
    ensures x.trace != [] <==> RequestRoll(st, request).Some?
    ensures OneAtATime(x.trace) && Released(x.trace)
  {
    match RequestRoll(st, request)
    case None =>
      EmptyIsSafe();
      Effect(st, [], false)
    case Some(a) =>
      PulseIsSafe(a.relay);
      Effect(st, a.trace, false)
  }

  /** The relay calls of the setup run a tick started, if any. */
  function SetupPart(st: State, t: Tick): (trace: seq<RelayEvent>)
    ensures OneAtATime(trace)
    ensures !(NeedsSetup(st, t.level) && Setup(t.calibration).times.None?) ==> Released(trace)
    ensures !NeedsSetup(st, t.level) ==> trace == []
  {
    EmptyIsSafe();
    SetupIsSafe(t.calibration);
    if NeedsSetup(st, t.level) then Setup(t.calibration).trace else []
  }

  /** The relay calls of the roll a tick made, if any. */
  function RollPart(st: State, t: Tick): (trace: seq<RelayEvent>)
    ensures OneAtATime(trace) && Released(trace)
    ensures |trace| <= 2
    ensures Step(st, t).roll.None? ==> trace == []
  {
    EmptyIsSafe();
    match Step(st, t).roll
    case None => []
    case Some(roll) =>
      PulseIsSafe(roll.activation.relay);
      roll.activation.trace
  }

  /** One pass of the main loop: the relay calls of its setup run, then of its roll. */
  function ApplyTick(st: State, t: Tick): (x: Effect)
    ensures Valid(st) ==> Valid(x.state)
    ensures OneAtATime(x.trace)
    ensures !x.stuck ==> Released(x.trace)
    ensures x.stuck <==> NeedsSetup(st, t.level) && Setup(t.calibration).times.None?
    ensures !NeedsSetup(st, t.level) ==> |x.trace| <= 2
  {
    var r := Step(st, t);
    var stuck := NeedsSetup(st, t.level) && Setup(t.calibration).times.None?;
    var setupTrace := SetupPart(st, t);
    var rollTrace := RollPart(st, t);
    if stuck then
      assert rollTrace == [];
      assert setupTrace + rollTrace == setupTrace;
      Effect(r.state, setupTrace + rollTrace, stuck)
    else
      SequentialIsSafe(setupTrace, rollTrace);
      Effect(r.state, setupTrace + rollTrace, stuck)
  }

  /** Applies one event to the globals. */
  function Apply(st: State, e: Event): (x: Effect)
    ensures Valid(st) ==> Valid(x.state)
    ensures OneAtATime(x.trace)
    ensures !x.stuck ==> Released(x.trace)
  {
    match e
    case RequestEvent(request) => ApplyRequest(st, request)
    case TickEvent(t) => ApplyTick(st, t)
  }

  /**
   * Applies the events in order. A tick stuck inside `setup()` never returns,
   * so nothing after it happens.
   */
  function Run(st: State, events: seq<Event>): (x: Effect)
    ensures Valid(st) ==> Valid(x.state)
    ensures OneAtATime(x.trace)
    ensures !x.stuck ==> Released(x.trace)
    decreases |events|
  {
    if |events| == 0 then
      EmptyIsSafe();
      Effect(st, [], false)
    else
      var first := Apply(st, events[0]);
      if first.stuck then first
      else
        var rest := Run(first.state, events[1..]);
        SequentialIsSafe(first.trace, rest.trace);
        Effect(rest.state, first.trace + rest.trace, rest.stuck)
  }

  /** From power-on, every reachable state is valid and the relays are never both on. */
  lemma RunFromInitial(events: seq<Event>)
    ensures Valid(Run(Initial, events).state)
    ensures OneAtATime(Run(Initial, events).trace)
  {
  }

  /** A `GET /up` request once set up pulses the up relay. */
  lemma RemoteUpPulsesUpRelay(st: State, request: string)
    requires st.setupState && Targets(request, "GET", "/up")
    ensures ApplyRequest(st, request).trace == [On(UpRelay), Off(UpRelay)]
  {
    RoutingByRequestLine(true, request);
    assert RequestRoll(st, request) == Some(ActivateBlinds(UP, st.upTime, st.downTime));
  }

  /** A `GET /down` request once set up pulses the down relay. */
  lemma RemoteDownPulsesDownRelay(st: State, request: string)
    requires st.setupState && Targets(request, "GET", "/down")
    ensures ApplyRequest(st, request).trace == [On(DownRelay), Off(DownRelay)]
  {
    RoutingByRequestLine(true, request);
    assert RequestRoll(st, request) == Some(ActivateBlinds(DOWN, st.upTime, st.downTime));
  }

  /** A press while the blind is recorded as down pulses the up relay. */
  lemma PressFromDownPulsesUpRelay(st: State, t: Tick)
    requires Valid(st) && st.upDownState == Some(DOWN) && st.previousValue == Some(0)
    requires t.level == 1
    ensures ApplyTick(st, t).trace == [On(UpRelay), Off(UpRelay)]
  {
  }

  /**
   * A remote roll leaves `upDownState` stale: after `GET /up` while the blind
   * is recorded as down, the up relay runs, the record still says down, and
   * the next button press rolls up once more.
   */
  lemma RemoteRollLeavesPositionStale(st: State, request: string, t: Tick)
    requires Valid(st) && st.upDownState == Some(DOWN) && st.previousValue == Some(0)
    requires Targets(request, "GET", "/up")
    requires t.level == 1
    ensures var x := Apply(st, RequestEvent(request));
            && x.trace == [On(UpRelay), Off(UpRelay)]
            && x.state.upDownState == Some(DOWN)
            && Apply(x.state, TickEvent(t)).trace == [On(UpRelay), Off(UpRelay)]
  {
    RemoteUpPulsesUpRelay(st, request);
    PressFromDownPulsesUpRelay(st, t);
  }
}

=== FILE: http.dfy ===
/**
 * The parsing and routing part of `handleRequest`: the request text is split
 * on single spaces as Python's `str.split(" ")` does, the first two tokens
 * are unpacked into `method` and `path`, and `GET /up` and `GET /down` roll
 * the blind.
 */
module Http {
  import opened Wrappers
  import opened Relays

  /** The first position of `c` in `s`. */
  function IndexOf(s: string, c: char): (i: nat)
    requires c in s
    ensures i < |s| && s[i] == c && c !in s[..i]
  {
    if s[0] == c then 0
    else
      assert s == [s[0]] + s[1..];
      var j := IndexOf(s[1..], c);
      assert s[1..][..j] == s[1..j + 1];
      assert s[..j + 1] == [s[0]] + s[1..j + 1];
      j + 1
  }

  /** The tokens joined back with `sep` between them: Python's `sep.join(parts)`. */
  function Join(parts: seq<string>, sep: char): string
    requires |parts| >= 1
    decreases |parts|
  {
    if |parts| == 1 then parts[0] else parts[0] + [sep] + Join(parts[1..], sep)
  }

  /**
   * `s.split(sep)` with an explicit separator: never empty, and adjacent,
   * leading or trailing separators give empty tokens.
   */
  function Split(s: string, sep: char): (parts: seq<string>)
    ensures |parts| >= 1
    ensures forall k :: 0 <= k < |parts| ==> sep !in parts[k]
    ensures Join(parts, sep) == s
    decreases |s|
  {
    if sep !in s then [s]
    else
      var i := IndexOf(s, sep);
      var rest := Split(s[i + 1..], sep);
      var parts := [s[..i]] + rest;
      assert parts[1..] == rest;
      assert s == s[..i] + [sep] + s[i + 1..];
      parts
  }

  /** Splitting a joined sequence of separator-free tokens gives the tokens back. */
  lemma {:induction false} SplitJoin(parts: seq<string>, sep: char)
    requires |parts| >= 1
    requires forall k :: 0 <= k < |parts| ==> sep !in parts[k]
    ensures Split(Join(parts, sep), sep) == parts
    decreases |parts|
  {
    var s := Join(parts, sep);
    if |parts| == 1 {
    } else {
      var tail := Join(parts[1..], sep);
      assert s == parts[0] + [sep] + tail;
      assert sep in s by { assert s[|parts[0]|] == sep; }
      var i := IndexOf(s, sep);
      assert s[..|parts[0]|] == parts[0];
      assert i == |parts[0]|;
      assert s[..i] == parts[0];
      assert s[i + 1..] == tail;
      SplitJoin(parts[1..], sep);
      assert Split(s, sep) == [parts[0]] + parts[1..];
    }
  }

  /** A status line and a plain-text body, as written back to the client. */
  datatype Response = Response(status: nat, reason: string, body: string)

  const RESPONSE_UP: Response := Response(200, "OK", "Rullar upp...")
  const RESPONSE_DOWN: Response := Response(200, "OK", "Rullar ner...")
  const RESPONSE_NOT_FOUND: Response := Response(404, "Not Found", "404 Not Found")

  /** The three-digit status code of the two statuses the handler writes. */
  function StatusText(status: nat): string
    requires status in {200, 404}
  {
    if status == 200 then "200" else "404"
  }

  /** The line break ending the status line, the one header, and the empty line before the body. */
  const HEADERS: string := "\r\nContent-Type: text/plain\r\n\r\n"

  /** The status line of a response, without its line break. */
  function StatusLine(r: Response): string
    requires r.status in {200, 404}
  {
    "HTTP/1.1 " + StatusText(r.status) + " " + r.reason
  }

  /** The bytes `writer.write` is given: the status line, one header and the body. */
  function Wire(r: Response): (w: string)
    requires r.status in {200, 404}
    ensures StatusLine(r) + "\r\n" <= w
    ensures |w| >= |r.body| && w[|w| - |r.body|..] == r.body
  {
    var head := StatusLine(r) + HEADERS;
    assert (head + r.body)[..|StatusLine(r) + "\r\n"|] == StatusLine(r) + "\r\n";
    assert (head + r.body)[|head|..] == r.body;
    head + r.body
  }

  /** The head of a 200 response, as one literal. */
  lemma OkHead()
    ensures "HTTP/1.1 200 OK" + HEADERS == "HTTP/1.1 200 OK\r\nContent-Type: text/plain\r\n\r\n"
  {
  }

  /** The head of a 404 response, as one literal. */
  lemma NotFoundHead()
    ensures "HTTP/1.1 404 Not Found" + HEADERS == "HTTP/1.1 404 Not Found\r\nContent-Type: text/plain\r\n\r\n"
  {
  }

  /** `GET /up` writes exactly the literal of its branch. */
  lemma WireUp()
    ensures Wire(RESPONSE_UP) == "HTTP/1.1 200 OK\r\nContent-Type: text/plain\r\n\r\nRullar upp..."
  {
    assert StatusLine(RESPONSE_UP) == "HTTP/1.1 200 OK";
    OkHead();
    assert "HTTP/1.1 200 OK\r\nContent-Type: text/plain\r\n\r\n" + "Rullar upp..." == "HTTP/1.1 200 OK\r\nContent-Type: text/plain\r\n\r\nRullar upp...";
  }

  /** `GET /down` writes exactly the literal of its branch. */
  lemma WireDown()
    ensures Wire(RESPONSE_DOWN) == "HTTP/1.1 200 OK\r\nContent-Type: text/plain\r\n\r\nRullar ner..."
  {
    assert StatusLine(RESPONSE_DOWN) == "HTTP/1.1 200 OK";
    OkHead();
    assert "HTTP/1.1 200 OK\r\nContent-Type: text/plain\r\n\r\n" + "Rullar ner..." == "HTTP/1.1 200 OK\r\nContent-Type: text/plain\r\n\r\nRullar ner...";
  }

  /** Any other `GET` writes exactly the 404 literal. */
  lemma WireNotFound()
    ensures Wire(RESPONSE_NOT_FOUND) == "HTTP/1.1 404 Not Found\r\nContent-Type: text/plain\r\n\r\n404 Not Found"
  {
    assert StatusLine(RESPONSE_NOT_FOUND) == "HTTP/1.1 404 Not Found";
    NotFoundHead();
    assert "HTTP/1.1 404 Not Found\r\nContent-Type: text/plain\r\n\r\n" + "404 Not Found" == "HTTP/1.1 404 Not Found\r\nContent-Type: text/plain\r\n\r\n404 Not Found";
  }

  /** What one `handleRequest` call did. */
  datatype Handled =
    | NotReady                  // setup not done: returned before reading, nothing written, connection left open
    | Empty                     // nothing was read: the connection is closed without a response
    | Malformed                 // fewer than two tokens: the unpacking raises and nothing is written
    | Served(response: Option<Response>, roll: Option<string>)  // routed, then drained and closed

  /** The routing table for an unpacked `method` and `path`. */
  function Route(verb: string, path: string): (r: (Option<Response>, Option<string>))
    ensures r.0.Some? <==> verb == "GET"
    ensures r.0.Some? ==> r.0.value.status in {200, 404}
    ensures r.1.Some? <==> r.0.Some? && r.0.value.status == 200
    ensures r.1 == Some(UP) <==> verb == "GET" && path == "/up"
    ensures r.1 == Some(DOWN) <==> verb == "GET" && path == "/down"
  {
    if verb == "GET" then
      if path == "/up" then (Some(RESPONSE_UP), Some(UP))
      else if path == "/down" then (Some(RESPONSE_DOWN), Some(DOWN))
      else (Some(RESPONSE_NOT_FOUND), None)
    else (None, None)
  }

  /** `handleRequest` given the global `setupState` and the decoded text read from the socket. */
  function HandleRequest(setupState: bool, request: string): (h: Handled)
    ensures !setupState <==> h.NotReady?
    ensures h.Empty? <==> setupState && request == ""
    ensures h.Malformed? <==> setupState && request != "" && ' ' !in request
    ensures h.Served? && h.response.Some? ==> h.response.value.status in {200, 404}
    ensures h.Served? && h.roll.Some? ==> h.roll.value in {UP, DOWN} && h.response.Some? && h.response.value.status == 200
  {
    if !setupState then NotReady
    else if request == "" then Empty
    else
      var tokens := Split(request, ' ');
      if |tokens| < 2 then Malformed
      else
        var (response, roll) := Route(tokens[0], tokens[1]);
        Served(response, roll)
  }

  /** The request starts with the request line `verb path` (method and path), followed by a space or nothing. */
  predicate Targets(request: string, verb: string, path: string) {
    var line := verb + " " + path;
    request == line || line + " " <= request
  }

  /** The first two tokens of the split, when there are two. */
  predicate Unpacks(request: string, verb: string, path: string) {
    var parts := Split(request, ' ');
    |parts| >= 2 && parts[0] == verb && parts[1] == path
  }

  lemma UnpacksTargets(request: string, verb: string, path: string)
    requires Unpacks(request, verb, path)
    ensures Targets(request, verb, path)
  {
  }

  /** `verb path` with nothing after it splits into exactly those two tokens. */
  lemma BareLineUnpacks(verb: string, path: string)
    requires ' ' !in verb && ' ' !in path
    ensures Split(verb + " " + path, ' ') == [verb, path]
  {
    assert Join([verb, path], ' ') == verb + " " + path;
    SplitJoin([verb, path], ' ');
  }

  /** `verb path rest` splits into the two tokens followed by the tokens of `rest`. */
  lemma LongLineUnpacks(verb: string, path: string, rest: string)
    requires ' ' !in verb && ' ' !in path
    ensures Split(verb + " " + path + " " + rest, ' ') == [verb, path] + Split(rest, ' ')
  {
    var tail := Split(rest, ' ');
    var all := [verb, path] + tail;
    assert all[1..] == [path] + tail;
    assert all[1..][1..] == tail;
    assert Join(all[1..], ' ') == path + " " + rest;
    assert Join(all, ' ') == verb + " " + path + " " + rest;
    forall k | 0 <= k < |all|
      ensures ' ' !in all[k]
    {
      if k >= 2 { assert all[k] == tail[k - 2]; }
    }
    SplitJoin(all, ' ');
  }

  lemma TargetsUnpacks(request: string, verb: string, path: string)
    requires ' ' !in verb && ' ' !in path
    requires Targets(request, verb, path)
    ensures Unpacks(request, verb, path)
  {
    var line := verb + " " + path;
    if request == line {
      BareLineUnpacks(verb, path);
    } else {
      var rest := request[|line| + 1..];
      assert request == line + " " + rest by {
        assert request[..|line| + 1] == line + " ";
        assert request == request[..|line| + 1] + rest;
      }
      LongLineUnpacks(verb, path, rest);
    }
  }

  /** Unpacking the first two tokens is reading the start of the request text. */
  lemma TokensIff(request: string, verb: string, path: string)
    requires ' ' !in verb && ' ' !in path
    ensures Unpacks(request, verb, path) <==> Targets(request, verb, path)
  {
    if Unpacks(request, verb, path) {
      UnpacksTargets(request, verb, path);
    }
    if Targets(request, verb, path) {
      TargetsUnpacks(request, verb, path);
    }
  }

  /**
   * Routing read off the request text: which requests roll the blind up or
   * down and which are answered 404.
   */
  lemma RoutingByRequestLine(setupState: bool, request: string)
    ensures (HandleRequest(setupState, request) == Served(Some(RESPONSE_UP), Some(UP)))
              <==> setupState && Targets(request, "GET", "/up")
    ensures (HandleRequest(setupState, request) == Served(Some(RESPONSE_DOWN), Some(DOWN)))
              <==> setupState && Targets(request, "GET", "/down")
    ensures (HandleRequest(setupState, request) == Served(Some(RESPONSE_NOT_FOUND), None))
              <==> setupState && "GET " <= request && !Targets(request, "GET", "/up") && !Targets(request, "GET", "/down")
    ensures (HandleRequest(setupState, request).Served? && HandleRequest(setupState, request).response.None?)
              <==> setupState && ' ' in request && !("GET " <= request)
  {
    TokensIff(request, "GET", "/up");
    TokensIff(request, "GET", "/down");
    if setupState && "GET " <= request {
      var parts := Split(request, ' ');
      assert request[3] == ' ';
      assert ' ' in request;
      assert |parts| >= 2;
      assert parts[0] == "GET" by {
        assert request == parts[0] + " " + Join(parts[1..], ' ');
        assert request[..3] == "GET";
      }
    }
  }
}

=== FILE: relays.dfy ===
/** The two relay output pins and the on/off traces the controller drives them with. */
module Relays {

  /** `upPin` (GPIO 27) and `downPin` (GPIO 23). */
  datatype Relay = UpRelay | DownRelay

  /** The direction strings `activateBlinds` takes and `upDownState` records. */
  const UP: string := "up"
  const DOWN: string := "down"

  /** One `pin.on()` or `pin.off()` call. */
  datatype RelayEvent = On(relay: Relay) | Off(relay: Relay)

  /** The set of energised relays after applying one event. */
  function Switch(lit: set<Relay>, e: RelayEvent): set<Relay> {
    match e
    case On(r) => lit + {r}
    case Off(r) => lit - {r}
  }

  /** The set of energised relays after replaying `trace` from `lit`. */
  function Lit(lit: set<Relay>, trace: seq<RelayEvent>): set<Relay>
    decreases |trace|
  {
    if |trace| == 0 then lit else Lit(Switch(lit, trace[0]), trace[1..])
  }

  /** Both relays on at once: the motor would be driven both ways. */
  predicate BothOn(lit: set<Relay>) {
    UpRelay in lit && DownRelay in lit
  }

  /** Starting with every relay off, no prefix of `trace` ever has both relays on. */
  predicate OneAtATime(trace: seq<RelayEvent>) {
    forall k :: 0 <= k <= |trace| ==> !BothOn(Lit({}, trace[..k]))
  }

  /** Starting with every relay off, `trace` ends with every relay off again. */
  predicate Released(trace: seq<RelayEvent>) {
    Lit({}, trace) == {}
  }

  /** Replaying a concatenation is replaying its halves one after the other. */
  lemma {:induction false} LitAppend(lit: set<Relay>, a: seq<RelayEvent>, b: seq<RelayEvent>)
    ensures Lit(lit, a + b) == Lit(Lit(lit, a), b)
    decreases |a|
  {
    if |a| == 0 {
      assert a + b == b;
    } else {
      assert (a + b)[0] == a[0];
      assert (a + b)[1..] == a[1..] + b;
      LitAppend(Switch(lit, a[0]), a[1..], b);
    }
  }

  /** One relay pulsed on and off again never overlaps with the other one. */
  lemma PulseIsSafe(r: Relay)
    ensures OneAtATime([On(r), Off(r)])
    ensures Released([On(r), Off(r)])
  {
    var t := [On(r), Off(r)];
    assert t[..0] == [];
    assert t[..1] == [On(r)];
    assert t[..2] == t;
    assert [On(r)][1..] == [] && t[1..] == [Off(r)] && [Off(r)][1..] == [];
    assert Lit({r}, []) == {r};
    assert Lit({}, [On(r)]) == {r};
    assert Lit({}, []) == {};
    assert Lit({r}, [Off(r)]) == {};
    assert Lit({}, t) == {};
    forall k | 0 <= k <= |t|
      ensures !BothOn(Lit({}, t[..k]))
    {
    }
  }

  /**
   * Safe segments that each hand the relays back switched off compose: the
   * controller never needs a busy flag as long as every roll runs to completion
   * before the next one starts.
   */
  lemma {:induction false} SequentialIsSafe(a: seq<RelayEvent>, b: seq<RelayEvent>)
    requires OneAtATime(a) && Released(a)
    requires OneAtATime(b)
    ensures OneAtATime(a + b)
    ensures Lit({}, a + b) == Lit({}, b)
  {
    LitAppend({}, a, b);
    forall k | 0 <= k <= |a + b|
      ensures !BothOn(Lit({}, (a + b)[..k]))
    {
      if k <= |a| {
        assert (a + b)[..k] == a[..k];
      } else {
        var j := k - |a|;
        assert (a + b)[..k] == a + b[..j];
        LitAppend({}, a, b[..j]);
        assert !BothOn(Lit({}, b[..j]));
      }
    }
  }

  /** A prefix of a safe trace is safe. */
  lemma PrefixIsSafe(t: seq<RelayEvent>, n: nat)
    requires n <= |t|
    requires OneAtATime(t)
    ensures OneAtATime(t[..n])
  {
    forall k | 0 <= k <= n
      ensures !BothOn(Lit({}, t[..n][..k]))
    {
      assert t[..n][..k] == t[..k];
    }
  }
}

=== FILE: wrappers.dfy ===
/** The optional-value datatype shared by the blind controller model. */
module Wrappers {

  /** Python's `None` or a present value. */
  datatype Option<+T> = None | Some(value: T)
}
